=== FILE: README.md ===
# Asterisk Stasis utility — call session store and Minimax prompt cache

A Dafny model of the two pieces of sequential logic in the Asterisk Stasis
utility:

* **The call session store** of `StasisAppManager`. `callMetaStore` and
  `localStore` are both keyed by channel id. A `StasisStart` event records the
  call's metadata and gives the channel an empty variable map. A `StasisEnd`
  event removes both entries at once. `setLocalVariable` writes only into an
  existing map, mirrors each write as an Asterisk channel variable
  (`setChannelVar`) and reports success as a boolean. `getLocalVariable`
  returns `undefined` for unknown channels and keys. The store is an immutable
  `Store` record with pure transition functions; the `setChannelVar` requests
  are kept, in order, in `mirrorLog`.
* **The Minimax prompt cache** (`TtsMinimax.getTtsFile`). The node id becomes
  one directory name (`split('/').join('_')`) and the text is hashed. The
  rendered prompt lives at `<cwd>/tts/<node>/<hash>.mp3`. An existing file is
  served without calling the synthesis service. On a miss the service is
  called with a request built from the per-language voice configuration, and
  the audio is written to the cache file. Creating the cache folder fails
  when one of its directories is an existing file.

Modules: `Basics` (option, result, byte), `JsValues` (JavaScript truthiness
and `||`), `SessionStore` and `SessionTrace` (the store and replayed event
sequences), `CachePaths` (node-id sanitising, `path.join`, cache layout),
`MinimaxRequest` (language boost and setting defaults), `PromptCache`
(`getTtsFile` and sequential serving).

Several things are parameters of the model rather than code in it:

* SHA-256 is a function parameter `digest: string -> HexDigest`. Its results
  are 64 lower-case hex digits and nothing more is known about it.
* The working directory is a parameter `root: Cwd`: an absolute path with no
  trailing slash unless it is `/`.
* The HTTP synthesis call is a parameter
  `renderer: SynthesisRequest -> RenderReply`. It yields the decoded audio or
  a rejection.
* The file system is a set of directories and a map of files.
  `existsSync` holds for either.

`SessionTrace` replays arbitrary event sequences from the freshly constructed
store. It relates the result to an independent description in which, for each
channel and key, the latest event concerning it decides what is stored.

Behaviour worth noting, as the code has it:

* `StasisEnd` deletes both entries at once, with no delay.
* A missing voice configuration is only logged before the cache check. On a
  miss the code then reads fields of the missing entry and throws, so the
  model returns an error without calling the renderer. A hit is not affected.
* The hit branch reports `filename` as `<hash>.wav` and the miss branch as
  `<hash>.mp3`. Both name the same `.mp3` file path.
* `path.join` normalises the node segment but the public `path` is a template
  string. For the node id `..` the file is therefore written directly into
  the working directory, outside `tts/`, while `path` still reads
  `/aststasisutil/tts/../<hash>.mp3` (`CachePaths.DotDotNodeLeavesTtsDir`).
  The node ids `""` and `.` both use `tts/` itself.

## Model

| member | source | states |
|---|---|---|
| SessionStore.MetaOf | src/stasis-app-manager.js:44-53 | the `callMetaData` record: channel id, name and protocol id under `asterisk`, the channel's caller and dialplan, and the formatted start time as `calledAt` |
| SessionStore.OnStasisStart | src/stasis-app-manager.js:43-56 | the channel's metadata is exactly the record built from the channel and its start time, and it gets an empty variable map, replacing any earlier one; every other channel and the mirror log are unchanged; the two stores keep equal key sets |
| SessionStore.OnStasisEnd | src/stasis-app-manager.js:58-62 | both entries of the channel are gone at once; every other channel and the mirror log are unchanged; the key sets stay equal |
| SessionStore.SetLocalVariable | src/stasis-app-manager.js:75-82 | succeeds exactly when the channel has a variable map; on failure nothing changes and nothing is mirrored; on success only that key of that channel changes, metadata is untouched and exactly one `(channel, key, value)` mirror is appended |
| SessionStore.GetLocalVariable | src/stasis-app-manager.js:84-89 | yields a value exactly when the channel and the key are both present, and then the stored value; unknown channels give `undefined` |
| SessionStore.SetThenGet | src/stasis-app-manager.js:75-89 | a write to a live channel succeeds and is read back; every other (channel, key) reads as before |
| SessionStore.EndThenAbsent | src/stasis-app-manager.js:58-88 | after `StasisEnd` reads give `undefined` and writes return false without changing the store |
| SessionStore.StartDiscardsVariables | src/stasis-app-manager.js:54-55 | after `StasisStart` every variable of the channel reads `undefined`, even if it had been set before |
| SessionStore.SetKeepsChannels | src/stasis-app-manager.js:75-82 | a write never adds or removes a channel in either store |
| SessionTrace.RunMetaMatches | src/stasis-app-manager.js:43-62 | after any event sequence a channel's metadata is that of its latest `StasisStart`, or absent if a `StasisEnd` came later |
| SessionTrace.RunLiveMatches | src/stasis-app-manager.js:54-61 | after any event sequence a channel has a variable map exactly when its latest start/end event is a `StasisStart` |
| SessionTrace.RunLocalMatches | src/stasis-app-manager.js:54-88 | after any event sequence each variable reads as the latest value written to it while its channel was live, unless the channel started or ended after that write; otherwise `undefined` |
| SessionTrace.RunMirrorsMatch | src/stasis-app-manager.js:75-81 | after any event sequence the mirror log lists exactly the writes made to live channels, in order |
| SessionTrace.RunConsistent | src/stasis-app-manager.js:54-61 | after any event sequence `callMetaStore` and `localStore` hold the same channels |
| SessionTrace.EndedChannelIsGone | src/stasis-app-manager.js:58-88 | after any sequence ending in `StasisEnd(c)`, `c` has no metadata, reads give `undefined` and writes fail |
| JsValues.Or | src/tts-minimax.js:43-50 | `a || b` is `a` exactly when `a` is truthy, and `b` whenever `a` is falsy |
| JsValues.OrWithTruthyFallback | src/tts-minimax.js:43-50 | with a truthy default the setting sent is always truthy |
| CachePaths.SplitOn | src/tts-minimax.js:21 | `split('/')` always yields at least one part and no part contains `/` |
| CachePaths.JoinWith | src/tts-minimax.js:21 | `join` starts with the first part, followed by the separator when there are two or more parts |
| CachePaths.SplitJoinRoundTrip | src/tts-minimax.js:21 | joining the parts of `split(sep)` with `sep` gives the original string back |
| CachePaths.SplitJoinReplaces | src/tts-minimax.js:21 | `split('/').join('_')` equals replacing each `/` by `_` character by character |
| CachePaths.ReplaceSlashes | src/tts-minimax.js:21 | the per-character replacement keeps the length and changes exactly the `/` characters |
| CachePaths.SanitizeNodeId | src/tts-minimax.js:21 | the sanitised node id has the same length, contains no `/`, and keeps every other character in place |
| CachePaths.SanitizeIdempotent | src/tts-minimax.js:21 | sanitising twice equals sanitising once |
| CachePaths.SanitizeNotInjective | src/tts-minimax.js:21 | `a/b` and `a_b` share one cache folder |
| CachePaths.JoinSegment | src/tts-minimax.js:23-25 | joining an ordinary segment onto a directory without trailing slash inserts exactly one `/` |
| CachePaths.TtsDir | src/tts-minimax.js:23 | the cache root is `<cwd>/tts`, or `/tts` when the working directory is `/` |
| CachePaths.CacheFolder | src/tts-minimax.js:23 | the cache folder is `<tts>/<node>` for an ordinary node id and the `tts` directory itself for `""` and `.` |
| CachePaths.CacheDirs | src/tts-minimax.js:23-24 | the directories `ensureDirSync` needs include the cache folder; for an ordinary node id they are exactly `<tts>` and `<tts>/<node>`; for `""`, `.` or `..` only the cache folder itself |
| CachePaths.FileNotACacheDir | src/tts-minimax.js:23-25 | the cache file is never one of the directories created for it |
| CachePaths.CacheBase | src/tts-minimax.js:31 | the extension-less path is the cache folder, a `/` (none when the folder is `/` itself) and the hash, for every sanitised node id including `""`, `.` and `..` |
| CachePaths.CacheFolderIsDir | src/tts-minimax.js:23 | the cache folder is an absolute directory with no trailing slash unless it is `/` |
| CachePaths.PublicPath | src/tts-minimax.js:28 | the public path starts with `/aststasisutil/tts/`, is 24 characters longer than node and hash together, carries the node id right after that prefix followed by `/`, and ends with the hash followed by `.mp3` |
| CachePaths.PublicPathInjective | src/tts-minimax.js:28 | two (node, hash) pairs with the same public path are equal |
| CachePaths.CacheFile | src/tts-minimax.js:25-31 | the cache file path is the extension-less path plus `.mp3` |
| CachePaths.OrdinaryNodeLayout | src/tts-minimax.js:23-31 | for an ordinary node id the folder is `<tts>/<node>`, the file `<tts>/<node>/<hash>.mp3` and the base `<tts>/<node>/<hash>` |
| CachePaths.DotNodesShareTtsDir | src/tts-minimax.js:21-23 | the node ids `""` and `.` resolve to the `tts` directory itself |
| CachePaths.DotDotNodeLeavesTtsDir | src/tts-minimax.js:23-28 | the node id `..` resolves to the working directory, while the public path still reads `/aststasisutil/tts/../<hash>.mp3` |
| MinimaxRequest.LanguageBoost | src/tts-minimax.js:41 | `zh-HK` maps to `Chinese,Yue`, `zh-CN` to `Chinese`, and every other language to `English`, each in both directions |
| MinimaxRequest.LanguageBoostIsTable | src/tts-minimax.js:41 | the boost is the lookup in the table `{zh-HK: Chinese,Yue, zh-CN: Chinese}`, and `English` for a language not in it |
| MinimaxRequest.BuildRequest | src/tts-minimax.js:35-58 | fails exactly when the language has no configuration entry; otherwise carries the text, boost, URL with group id, bearer key and fixed model and format fields, and each voice and audio setting is the configured value when truthy, else its default |
| MinimaxRequest.EmptyConfigUsesDefaults | src/tts-minimax.js:43-50 | an empty configuration gives voice `Deep_Voice_Man`, speed 1, vol 1, pitch 0, sample rate 8000, bitrate 128000, mp3, one channel |
| MinimaxRequest.SentSettingsAreTruthy | src/tts-minimax.js:43-50 | every setting sent is truthy except the pitch, which can only be falsy as the default 0 |
| MinimaxRequest.LanguageOnlySelectsConfigAndBoost | src/tts-minimax.js:41-50 | two languages with the same configuration entry and boost produce the same request |
| PromptCache.Exists | src/tts-minimax.js:26 | `existsSync` holds for a directory as well as for a file |
| PromptCache.EnsureDirs | src/tts-minimax.js:24 | `ensureDirSync` fails exactly when one of the directories is an existing file; otherwise each of them exists afterwards, the files are untouched and no other directory appears |
| PromptCache.WriteFile | src/tts-minimax.js:60 | `writeFileSync` makes the path hold the data and leaves every other file and the directories as they were |
| PromptCache.DescriptorFor | src/tts-minimax.js:27-32 | the returned record names the cache file as `filePath`, which is `filePathWoExt` plus `.mp3`; `path` is the public path of node and hash; `filename` is the hash plus the branch's extension |
| PromptCache.GetTtsFile | src/tts-minimax.js:17-68 | fails with `CacheDirIsFile` exactly when a cache directory is an existing file, changing nothing; otherwise the cache directories exist afterwards; an existing cache file is served with no renderer call and no file written; on a miss with a configured language the renderer receives exactly the request built from that configuration, and it is called in no other case; a missing configuration fails exactly a miss; a miss with a configured language whose render returns audio succeeds, and a successful render writes exactly the cache file; a failed render writes nothing; every descriptor names the cache file, which then exists, with `filePath` = `filePathWoExt` + `.mp3`, the public `path` built from node and hash, and `filename` ending `.wav` on a hit and `.mp3` on a miss |
| PromptCache.FileEffect | src/tts-minimax.js:24-60 | one call adds exactly the absent cache file when it renders and otherwise leaves the files unchanged; directories only grow |
| PromptCache.RepeatIsHit | src/tts-minimax.js:26-60 | after a successful call, a second call with the same node id and text, in any language, is a hit with no render and no write, naming the same file and path |
| PromptCache.CallAt | src/tts-minimax.js:17-68 | in a run of calls, call `k` is `getTtsFile` on the file system the previous call left behind |
| PromptCache.CallKeepsKey | src/tts-minimax.js:24-33 | a cache entry in place (file present, directories not files) stays in place across any call, and a call for that entry is a hit |
| PromptCache.RenderCaches | src/tts-minimax.js:24-60 | a call that renders leaves its own cache entry in place |
| PromptCache.StaysHit | src/tts-minimax.js:26-33 | in a run, an entry in place before call `k` makes every later call for that entry a hit |
| PromptCache.NoReRender | src/tts-minimax.js:17-68 | in a run, if call `i` rendered, a later call `j` with the same sanitised node id and text digest does not call the renderer |
| PromptCache.AtMostOneRender | src/tts-minimax.js:17-68 | in a run, no key whose prompt was rendered reaches the renderer again |
| PromptCache.ServeSequentially | src/tts-minimax.js:17-68 | the cache afterwards is the one the last of the run's calls leaves behind; `rendered` lists, in order, the cache files of exactly the calls that called the renderer and succeeded; no rendered key reaches the renderer again; each listed file is distinct and was absent at the start; the cache afterwards holds exactly the old files, unchanged, plus the rendered ones |

## Left out

- The ARI connection, `ari.start`, event subscription and `getAsteriskChannelVariable` are transport I/O. Only the store updates the handlers perform are modelled.
- The `setChannelVar` call is recorded as a request in `mirrorLog`. Its promise is not awaited in the code, and its failure is not modelled.
- A `StasisEnd` handler is registered per `StasisStart`, so the code only sees `StasisEnd` for started channels. The model accepts it for any channel; for an unknown channel it changes nothing.
- The Fastify server is left out. Its POST route is a stub returning `{}`.
- The `newCall` and `connected` events and the logger are left out. Apart from the aliasing noted below, they only fan out notifications.
- SessionTrace.RunMetaMatches: `newCall` hands listeners the very `callMetaData` object that is stored (`src/stasis-app-manager.js:54-56`), so a listener can change the stored metadata through it. The model, and `SessionStore.OnStasisStart` with it, assumes listeners do not.
- The `moment` formatting of `calledAt` is a date library. The formatted string is an input of `OnStasisStart`. The `caller` and `dialplan` objects are opaque strings copied verbatim.
- Channel variable values are strings. JavaScript values such as `undefined` stored as a value are not modelled.
- Prototype keys of plain objects, such as `__proto__` used as a channel id or key, are not modelled.
- SHA-256 (`src/utils/sha256.js`) is a thin wrapper over Node's crypto, so the digest is a parameter.
- The axios call, hex decoding of the reply and `fs-extra` I/O are foreign calls. They are the `renderer` parameter and the `FileSystem` value.
- Numeric settings are exact reals, not IEEE doubles. Configuration entries are objects; a non-object entry is not modelled.
- The constructors' `opts.x || default` option defaulting is left out. The model takes the resulting options.
- `ensureDirSync` is modelled as creating the cache folder and its missing parent `tts`, and as failing when one of them is an existing file. Other file-system failures, such as permissions, are not modelled.
- PromptCache.GetTtsFile: on a hit the directory set may gain the cache folder, because `ensureDirSync` runs before the existence check. On a real file system that folder already exists whenever the file does; the model does not carry that invariant.
- The working directory is assumed to be in normal form. Only "absolute, no trailing slash" is recorded; `//` or dot segments inside it are not modelled.
- PromptCache.ServeSequentially: at most one render per key holds for sequential calls only. Concurrent identical misses can each render, since the code awaits the HTTP call between the existence check and the write.
- PromptCache.ServeSequentially: the `renderer` parameter gives the same answer to the same request for a whole run. So a retry in the same run after a transient rejection (a timeout, a rate limit, a service error) is not modelled. The properties of a single call (`GetTtsFile`, `FileEffect`, `CallKeepsKey`) do not depend on this.
- `src/tts-azure.js` and `src/acd-manager.js` are constructor-only stubs with no logic.
- Digit collection, playback control and agent bridging have no code in the modelled files.
- Parsing of dialplan arguments and seeding a default language have no code in the modelled files either.

=== FILE: basics.dfy ===
/** Small shared datatypes: optional values, results with an error, and bytes. */
module Basics {

  /** JavaScript's `undefined`-or-value, as returned by a property lookup. */
  datatype Option<T> = None | Some(value: T)

  /** A settled promise: resolved with a value or rejected with an error. */
  datatype Result<T, E> = Ok(value: T) | Err(error: E)

  newtype byte = x: int | 0 <= x < 256
}

=== FILE: cache_paths.dfy ===
/**
 Where the Minimax prompt cache puts a rendered prompt: the node id is made a
 single directory name (`split('/').join('_')`), the text is hashed, and the
 file lives at `<cwd>/tts/<node>/<hash>.mp3`, built with `path.join`, which
 normalises `""`, `"."` and `".."` segments. The public URL path is a plain
 template string and is not normalised.
 */
module CachePaths {

  // ---------------------------------------------------------------------------
  // Node id sanitisation
  // ---------------------------------------------------------------------------

  /** `s.split(sep)` for a one-character separator: never empty, and no part
      holds the separator. */
  function SplitOn(s: string, sep: char): (parts: seq<string>)
    ensures |parts| >= 1
    ensures forall i :: 0 <= i < |parts| ==> sep !in parts[i]
  {
    if |s| == 0 then [""]
    else
      var rest := SplitOn(s[1..], sep);
      if s[0] == sep then [""] + rest
      else [[s[0]] + rest[0]] + rest[1..]
  }

  /** `parts.join(sep)`: starts with the first part, followed by the
      separator when there is more than one part. */
  function JoinWith(parts: seq<string>, sep: string): (r: string)
    ensures |parts| > 0 ==> parts[0] <= r
    ensures |parts| > 1 ==> parts[0] + sep <= r
  {
    if |parts| == 0 then ""
    else if |parts| == 1 then parts[0]
    else parts[0] + sep + JoinWith(parts[1..], sep)
  }

  /** Reference: every `/` replaced by `_`, character by character. */
  function ReplaceSlashes(s: string): (r: string)
    ensures |r| == |s|
    ensures forall i :: 0 <= i < |s| ==> r[i] == if s[i] == '/' then '_' else s[i]
  {
    if |s| == 0 then ""
    else [if s[0] == '/' then '_' else s[0]] + ReplaceSlashes(s[1..])
  }

  /** Prefixing the first part prefixes the joined string. */
  lemma JoinPrefixFirst(c: string, parts: seq<string>, sep: string)
    requires |parts| >= 1
    ensures JoinWith([c + parts[0]] + parts[1..], sep) == c + JoinWith(parts, sep)
  {
    var longer := [c + parts[0]] + parts[1..];
    if |parts| > 1 {
      assert longer[1..] == parts[1..];
      assert JoinWith(longer, sep) == (c + parts[0]) + sep + JoinWith(parts[1..], sep);
    }
  }

  lemma {:induction false} SplitJoinReplaces(s: string)
    ensures JoinWith(SplitOn(s, '/'), "_") == ReplaceSlashes(s)
  {
    if |s| == 0 {
      return;
    }
    var rest := SplitOn(s[1..], '/');
    SplitJoinReplaces(s[1..]);
    if s[0] == '/' {
      assert SplitOn(s, '/') == [""] + rest;
      assert ([""] + rest)[1..] == rest;
    } else {
      assert SplitOn(s, '/') == [[s[0]] + rest[0]] + rest[1..];
      JoinPrefixFirst([s[0]], rest, "_");
    }
  }

  /** `ttsNodeId.split('/').join('_')`: a single directory name of the same
      length, with every other character left in place. */
  function SanitizeNodeId(node: string): (r: string)
    ensures r == ReplaceSlashes(node)
    ensures |r| == |node| && '/' !in r
    ensures forall i :: 0 <= i < |node| && node[i] != '/' ==> r[i] == node[i]
  {
    SplitJoinReplaces(node);
    JoinWith(SplitOn(node, '/'), "_")
  }

  /** Joining the parts with the separator they were split on gives the
      string back. */
  lemma {:induction false} SplitJoinRoundTrip(s: string, sep: char)
    ensures JoinWith(SplitOn(s, sep), [sep]) == s
  {
    if |s| == 0 {
      return;
    }
    var rest := SplitOn(s[1..], sep);
    SplitJoinRoundTrip(s[1..], sep);
    if s[0] == sep {
      assert SplitOn(s, sep) == [""] + rest;
      assert ([""] + rest)[1..] == rest;
    } else {
      assert SplitOn(s, sep) == [[s[0]] + rest[0]] + rest[1..];
      JoinPrefixFirst([s[0]], rest, [sep]);
    }
    assert s == [s[0]] + s[1..];
  }

  lemma SanitizeIdempotent(node: string)
    ensures SanitizeNodeId(SanitizeNodeId(node)) == SanitizeNodeId(node)
  {
  }

  /** Two different node ids can share a cache folder. */
  lemma SanitizeNotInjective()
    ensures "a/b" != "a_b" && SanitizeNodeId("a/b") == SanitizeNodeId("a_b")
  {
  }

  // ---------------------------------------------------------------------------
  // Content hash
  // ---------------------------------------------------------------------------

  /** A SHA-256 digest in hex, as `digest('hex')` produces it. */
  predicate IsHexDigest(s: string) {
    |s| == 64 && forall i :: 0 <= i < |s| ==> s[i] in "0123456789abcdef"
  }

  /** `n` zero digits: the digest used as the type's witness. */
  function Zeros(n: nat): (s: string)
    ensures |s| == n && forall i :: 0 <= i < n ==> s[i] == '0'
  {
    if n == 0 then "" else Zeros(n - 1) + "0"
  }

  type HexDigest = s: string | IsHexDigest(s) witness Zeros(64)

  // ---------------------------------------------------------------------------
  // path.join
  // ---------------------------------------------------------------------------

  /** `process.cwd()`: an absolute directory with no trailing slash unless it is `/`. */
  predicate IsAbsoluteDir(d: string) {
    |d| > 0 && d[0] == '/' && (|d| == 1 || d[|d| - 1] != '/')
  }

  type Cwd = d: string | IsAbsoluteDir(d) witness "/"

  /** A segment `path.join` keeps as written. */
  predicate IsPlainSegment(seg: string) {
    seg != "" && seg != "." && seg != ".." && '/' !in seg
  }

  /** Index of the last `/` in `d`, or -1. */
  function LastSlash(d: string): (i: int)
    ensures -1 <= i < |d|
    ensures i >= 0 ==> d[i] == '/'
    ensures forall j :: i < j < |d| ==> d[j] != '/'
  {
    if |d| == 0 then -1
    else if d[|d| - 1] == '/' then |d| - 1
    else LastSlash(d[..|d| - 1])
  }

  /** The directory a `..` segment leads to from an absolute directory. */
  function ParentDir(d: string): string {
    var i := LastSlash(d);
    if i <= 0 then "/" else d[..i]
  }

  /** `path.join(dir, seg)` for a normalised directory and a segment without `/`. */
  function JoinSegment(dir: string, seg: string): (r: string)
    requires '/' !in seg
    ensures IsPlainSegment(seg) && |dir| > 0 && dir[|dir| - 1] != '/' ==> r == dir + "/" + seg
  {
    if seg == "" || seg == "." then dir
    else if seg == ".." then ParentDir(dir)
    else if |dir| > 0 && dir[|dir| - 1] == '/' then dir + seg
    else dir + "/" + seg
  }

  lemma {:induction false} LastSlashAfterSlashFree(a: string, b: string)
    requires '/' !in b
    ensures LastSlash(a + b) == LastSlash(a)
  {
    if |b| == 0 {
      assert a + b == a;
    } else {
      assert (a + b)[|a + b| - 1] == b[|b| - 1];
      assert (a + b)[..|a + b| - 1] == a + b[..|b| - 1];
      LastSlashAfterSlashFree(a, b[..|b| - 1]);
    }
  }

  /** `path.join(cwd, 'tts')`, the root of the cache. */
  function TtsDir(root: Cwd): (r: string)
    ensures r == (if root == "/" then "/tts" else root + "/tts")
  {
    JoinSegment(root, "tts")
  }

  /** `path.join(cwd, 'tts', node)` for a sanitised node id. */
  function CacheFolder(root: Cwd, node: string): (r: string)
    requires '/' !in node
    ensures IsPlainSegment(node) ==> r == TtsDir(root) + "/" + node
    ensures node == "" || node == "." ==> r == TtsDir(root)
  {
    JoinSegment(TtsDir(root), node)
  }

  /** The cache folder is a normalised absolute directory, like the working
      directory. */
  lemma CacheFolderIsDir(root: Cwd, node: string)
    requires '/' !in node
    ensures IsAbsoluteDir(CacheFolder(root, node))
  {
    var tts := TtsDir(root);
    assert tts[|tts| - 1] == 's';
    if IsPlainSegment(node) {
      var folder := tts + "/" + node;
      assert folder[|folder| - 1] == node[|node| - 1];
    } else if node == ".." {
      DotDotNodeLeavesTtsDir(root, Zeros(64));
    }
  }

  lemma HexHasNoSlash(h: HexDigest)
    ensures IsPlainSegment(h) && IsPlainSegment(h + ".mp3")
  {
    assert (h + ".mp3")[|h|] == '.';
  }

  /** `path.join(cwd, 'tts', node, hash + '.mp3')`. */
  function CacheFile(root: Cwd, node: string, h: HexDigest): (r: string)
    requires '/' !in node
    ensures r == CacheBase(root, node, h) + ".mp3"
  {
    HexHasNoSlash(h);
    var folder := CacheFolder(root, node);
    JoinSegment(folder, h + ".mp3")
  }

  /** `path.join(cwd, 'tts', node, hash)`: inside the cache folder, ending in the hash. */
  function CacheBase(root: Cwd, node: string, h: HexDigest): (r: string)
    requires '/' !in node
    ensures CacheFolder(root, node) < r
    ensures |r| > |h| && r[|r| - |h|..] == h
    ensures r == CacheFolder(root, node) + (if CacheFolder(root, node) == "/" then "" else "/") + h
  {
    HexHasNoSlash(h);
    CacheFolderIsDir(root, node);
    JoinSegment(CacheFolder(root, node), h)
  }

  /** `/aststasisutil/tts/${node}/${hash}.mp3`: a template string, not normalised. */
  function PublicPath(node: string, h: HexDigest): (r: string)
    ensures "/aststasisutil/tts/" <= r
    ensures |r| == |node| + |h| + 24 && r[|r| - 68..|r| - 4] == h
    ensures r[|r| - 4..] == ".mp3" && r[19..19 + |node|] == node && r[19 + |node|] == '/'
  {
    "/aststasisutil/tts/" + node + "/" + h + ".mp3"
  }

  /** Different (node, hash) pairs get different public paths: the hash has a
      fixed length, so the node part is recovered from the rest. */
  lemma PublicPathInjective(n1: string, h1: HexDigest, n2: string, h2: HexDigest)
    requires PublicPath(n1, h1) == PublicPath(n2, h2)
    ensures n1 == n2 && h1 == h2
  {
    var p := PublicPath(n1, h1);
    assert |n1| == |n2|;
    assert n1 == p[19..19 + |n1|];
    assert n2 == PublicPath(n2, h2)[19..19 + |n2|];
  }

  /** The directories `ensureDirSync(path.join(cwd, 'tts', node))` needs: the
      cache folder and, when that lies below it, `tts` itself (missing parents
      are created too). The working directory exists already. */
  function CacheDirs(root: Cwd, node: string): (ds: set<string>)
    requires '/' !in node
    ensures CacheFolder(root, node) in ds
    ensures IsPlainSegment(node) ==> ds == {TtsDir(root), TtsDir(root) + "/" + node}
    ensures !IsPlainSegment(node) ==> ds == {CacheFolder(root, node)}
  {
    if IsPlainSegment(node) then {TtsDir(root), CacheFolder(root, node)} else {CacheFolder(root, node)}
  }

  /** The cache file is never one of the directories created for it. */
  lemma FileNotACacheDir(root: Cwd, node: string, h: HexDigest)
    requires '/' !in node
    ensures CacheFile(root, node, h) !in CacheDirs(root, node)
  {
    assert |CacheFile(root, node, h)| > |CacheFolder(root, node)|;
  }

  /** For an ordinary node id the cache file sits at `<cwd>/tts/<node>/<hash>.mp3`. */
  lemma OrdinaryNodeLayout(root: Cwd, node: string, h: HexDigest)
    requires IsPlainSegment(node)
    ensures CacheFolder(root, node) == TtsDir(root) + "/" + node
    ensures CacheFile(root, node, h) == TtsDir(root) + "/" + node + "/" + h + ".mp3"
    ensures CacheBase(root, node, h) == TtsDir(root) + "/" + node + "/" + h
  {
    HexHasNoSlash(h);
    var folder := TtsDir(root) + "/" + node;
    assert folder[|folder| - 1] == node[|node| - 1];
  }

  /** The empty node id and `.` both put their files directly in `<cwd>/tts`. */
  lemma DotNodesShareTtsDir(root: Cwd)
    ensures CacheFolder(root, "") == TtsDir(root)
    ensures CacheFolder(root, ".") == TtsDir(root)
  {
  }

  /** The node id `..` puts its files in the working directory itself,
      outside `tts`. The second clause only spells out `PublicPath` for
      `..`, to set it beside the first: the public path is not normalised. */
  lemma DotDotNodeLeavesTtsDir(root: Cwd, h: HexDigest)
    ensures CacheFolder(root, "..") == root
    ensures PublicPath("..", h) == "/aststasisutil/tts/../" + h + ".mp3"
  {
    if root == "/" {
      assert TtsDir(root) == "/" + "tts";
      LastSlashAfterSlashFree("/", "tts");
    } else {
      assert TtsDir(root) == (root + "/") + "tts";
      LastSlashAfterSlashFree(root + "/", "tts");
      assert (root + "/")[..|root|] == root;
    }
  }
}

=== FILE: js_values.dfy ===
/**
 JavaScript values as far as the configuration code looks at them: the
 truthiness test and the `a || b` defaulting idiom.
 */
module JsValues {

  /** The configuration values that can reach a voice or audio setting.
      Numbers are kept exact (`real`); `NaN` is its own case because it is
      the one number besides zero that is falsy. */
  datatype JsValue =
    | Undefined
    | Null
    | Bool(b: bool)
    | Number(x: real)
    | NaN
    | Str(s: string)

  /** JavaScript's ToBoolean: `undefined`, `null`, `false`, `0`, `NaN` and
      the empty string are falsy, everything else is truthy. */
  predicate Truthy(v: JsValue) {
    match v
    case Undefined => false
    case Null => false
    case Bool(b) => b
    case Number(x) => x != 0.0
    case NaN => false
    case Str(s) => s != ""
  }

  /** `a || fallback`: the left operand when it is truthy, the right one otherwise. */
  function Or(a: JsValue, fallback: JsValue): (r: JsValue)
    ensures r == a || r == fallback
    ensures Truthy(a) <==> r == a && Truthy(r)
    ensures !Truthy(a) ==> r == fallback
  {
    if Truthy(a) then a else fallback
  }

  /** A truthy fallback makes the result truthy whatever the configured value. */
  lemma OrWithTruthyFallback(a: JsValue, fallback: JsValue)
    requires Truthy(fallback)
    ensures Truthy(Or(a, fallback))
  {
  }
}

=== FILE: minimax_request.dfy ===
/**
 The body of the Minimax text-to-speech request that a cache miss sends: the
 language boost chosen from the call language and the voice and audio
 settings taken from the per-language voice configuration, each falling back
 to a fixed default when the configured value is falsy.
 */
module MinimaxRequest {
  import opened Basics
  import opened JsValues

  /** One entry of `voiceConfig`; a field that is not set is `Undefined`. */
  datatype VoiceConfig = VoiceConfig(
    voice: JsValue,
    speed: JsValue,
    vol: JsValue,
    pitch: JsValue,
    sampleRate: JsValue,
    bitrate: JsValue)

  /** The options a `TtsMinimax` instance keeps. */
  datatype TtsOptions = TtsOptions(apiKey: string, groupId: string, voiceConfig: map<string, VoiceConfig>)

  datatype VoiceSetting = VoiceSetting(voiceId: JsValue, speed: JsValue, vol: JsValue, pitch: JsValue)

  datatype AudioSetting = AudioSetting(sampleRate: JsValue, bitrate: JsValue, format: string, channel: int)

  /** The POST request: its URL, its Authorization header and its JSON body. */
  datatype SynthesisRequest = SynthesisRequest(
    url: string,
    authorization: string,
    model: string,
    text: string,
    stream: bool,
    subtitleEnable: bool,
    outputFormat: string,
    languageBoost: string,
    voice: VoiceSetting,
    audio: AudioSetting)

  const Endpoint := "https://api.minimaxi.chat/v1/t2a_v2?GroupId="

  const DefaultVoice := Str("Deep_Voice_Man")
  const DefaultSpeed := Number(1.0)
  const DefaultVol := Number(1.0)
  const DefaultPitch := Number(0.0)
  const DefaultSampleRate := Number(8000.0)
  const DefaultBitrate := Number(128000.0)

  /** Cantonese for `zh-HK`, Mandarin for `zh-CN`, English for everything else. */
  function LanguageBoost(language: string): (boost: string)
    ensures boost == "Chinese,Yue" <==> language == "zh-HK"
    ensures boost == "Chinese" <==> language == "zh-CN"
    ensures boost == "English" <==> language != "zh-HK" && language != "zh-CN"
  {
    if language == "zh-HK" then "Chinese,Yue"
    else if language == "zh-CN" then "Chinese"
    else "English"
  }

  /** The boost table: the languages with a boost of their own. */
  const BoostTable: map<string, string> := map["zh-HK" := "Chinese,Yue", "zh-CN" := "Chinese"]

  /** `LanguageBoost` is the table lookup with `English` for every other language. */
  lemma LanguageBoostIsTable(language: string)
    ensures LanguageBoost(language) == if language in BoostTable then BoostTable[language] else "English"
  {
  }

  /** A configured value is used exactly when it is truthy; otherwise the default. */
  ghost predicate Defaulted(configured: JsValue, default: JsValue, sent: JsValue) {
    (Truthy(configured) ==> sent == configured) && (!Truthy(configured) ==> sent == default)
  }

  /** Every setting of `rq` follows `cfg`, falling back to the documented defaults. */
  ghost predicate SettingsFollow(cfg: VoiceConfig, rq: SynthesisRequest) {
    && Defaulted(cfg.voice, DefaultVoice, rq.voice.voiceId)
    && Defaulted(cfg.speed, DefaultSpeed, rq.voice.speed)
    && Defaulted(cfg.vol, DefaultVol, rq.voice.vol)
    && Defaulted(cfg.pitch, DefaultPitch, rq.voice.pitch)
    && Defaulted(cfg.sampleRate, DefaultSampleRate, rq.audio.sampleRate)
    && Defaulted(cfg.bitrate, DefaultBitrate, rq.audio.bitrate)
    && rq.audio.format == "mp3" && rq.audio.channel == 1
  }

  datatype RequestError = MissingVoiceConfig(language: string)

  /** Build the request for `text` in `language`. Reading the settings of a
      language with no configuration entry throws a TypeError; that is the
      error outcome here. */
  function BuildRequest(opts: TtsOptions, language: string, text: string): (r: Result<SynthesisRequest, RequestError>)
    ensures r.Err? <==> language !in opts.voiceConfig
    ensures r.Err? ==> r.error == MissingVoiceConfig(language)
    ensures r.Ok? ==> r.value.text == text && r.value.languageBoost == LanguageBoost(language)
    ensures r.Ok? ==> r.value.url == Endpoint + opts.groupId && r.value.authorization == "Bearer " + opts.apiKey
    ensures r.Ok? ==> r.value.model == "speech-01-turbo" && r.value.outputFormat == "hex"
    ensures r.Ok? ==> !r.value.stream && !r.value.subtitleEnable
    ensures r.Ok? ==> SettingsFollow(opts.voiceConfig[language], r.value)
  {
    if language !in opts.voiceConfig then
      Err(MissingVoiceConfig(language))
    else
      var cfg := opts.voiceConfig[language];
      Ok(SynthesisRequest(
        Endpoint + opts.groupId,
        "Bearer " + opts.apiKey,
        "speech-01-turbo",
        text,
        false,
        false,
        "hex",
        LanguageBoost(language),
        VoiceSetting(Or(cfg.voice, DefaultVoice), Or(cfg.speed, DefaultSpeed),
                     Or(cfg.vol, DefaultVol), Or(cfg.pitch, DefaultPitch)),
        AudioSetting(Or(cfg.sampleRate, DefaultSampleRate), Or(cfg.bitrate, DefaultBitrate), "mp3", 1)))
  }

  /** An empty configuration entry yields exactly the documented defaults. */
  lemma EmptyConfigUsesDefaults(opts: TtsOptions, language: string, text: string)
    requires language in opts.voiceConfig
    requires opts.voiceConfig[language] == VoiceConfig(Undefined, Undefined, Undefined, Undefined, Undefined, Undefined)
    ensures BuildRequest(opts, language, text).Ok?
    ensures BuildRequest(opts, language, text).value.voice
      == VoiceSetting(Str("Deep_Voice_Man"), Number(1.0), Number(1.0), Number(0.0))
    ensures BuildRequest(opts, language, text).value.audio
      == AudioSetting(Number(8000.0), Number(128000.0), "mp3", 1)
  {
  }

  /** Whatever is configured, every setting sent is truthy except the pitch,
      which is falsy only as the default `0`. */
  lemma SentSettingsAreTruthy(opts: TtsOptions, language: string, text: string)
    requires language in opts.voiceConfig
    ensures var rq := BuildRequest(opts, language, text).value;
      && Truthy(rq.voice.voiceId) && Truthy(rq.voice.speed) && Truthy(rq.voice.vol)
      && Truthy(rq.audio.sampleRate) && Truthy(rq.audio.bitrate)
      && (Truthy(rq.voice.pitch) || rq.voice.pitch == Number(0.0))
  {
  }

  /** The language only changes the boost and the configuration consulted:
      two languages sharing one configuration entry and one boost produce the
      same request. */
  lemma LanguageOnlySelectsConfigAndBoost(opts: TtsOptions, l1: string, l2: string, text: string)
    requires l1 in opts.voiceConfig && l2 in opts.voiceConfig
    requires opts.voiceConfig[l1] == opts.voiceConfig[l2]
    requires LanguageBoost(l1) == LanguageBoost(l2)
    ensures BuildRequest(opts, l1, text) == BuildRequest(opts, l2, text)
  {
  }
}

=== FILE: prompt_cache.dfy ===
/**
 `getTtsFile` of the Minimax backend: a content-addressed cache of rendered
 prompts. The file system is a set of directories and a map of files; the
 presence of the cache file (`existsSync`) alone decides a hit. SHA-256, the
 working directory and the HTTP synthesis call are parameters.
 */
module PromptCache {
  import opened Basics
  import opened CachePaths
  import opened MinimaxRequest

  datatype FileSystem = FileSystem(dirs: set<string>, files: map<string, seq<byte>>)

  /** `existsSync`: true for a directory as well as for a file. */
  predicate Exists(fs: FileSystem, p: string)
    ensures Exists(fs, p) <==> p in fs.dirs + fs.files.Keys
  {
    p in fs.dirs || p in fs.files
  }

  /** `ensureDirSync`: create the directories (missing parents included), or
      throw when one of them is an existing file (EEXIST, ENOTDIR). */
  function EnsureDirs(fs: FileSystem, ds: set<string>): (r: Option<FileSystem>)
    ensures r.Some? <==> forall d :: d in ds ==> d !in fs.files
    ensures r.Some? ==> forall d :: d in ds ==> Exists(r.value, d)
    ensures r.Some? ==> r.value.files == fs.files && fs.dirs <= r.value.dirs && r.value.dirs - fs.dirs <= ds
  {
    if ds * fs.files.Keys != {} then
      None
    else
      assert forall d :: d in ds ==> d in fs.files ==> d in ds * fs.files.Keys;
      Some(fs.(dirs := fs.dirs + ds))
  }

  /** `writeFileSync(p, data)`: `p` holds `data`, every other file is untouched. */
  function WriteFile(fs: FileSystem, p: string, data: seq<byte>): (r: FileSystem)
    ensures p in r.files && r.files[p] == data && r.dirs == fs.dirs
    ensures forall q :: q != p ==> (q in r.files <==> q in fs.files)
    ensures forall q :: q != p && q in fs.files ==> r.files[q] == fs.files[q]
  {
    fs.(files := fs.files[p := data])
  }

  datatype TtsRequest = TtsRequest(language: string, ttsNodeId: string, text: string)

  /** What the synthesis call settles to: the decoded audio, or a rejection. */
  datatype RenderReply = Audio(bytes: seq<byte>) | RenderRejected

  datatype TtsError = CacheDirIsFile | NoVoiceConfig(language: string) | RenderFailed

  datatype Descriptor = Descriptor(path: string, filename: string, filePath: string, filePathWoExt: string)

  /** The settled result, the file system afterwards, and the request sent to
      the renderer (`None` when the renderer was not called). */
  datatype CacheCall = CacheCall(result: Result<Descriptor, TtsError>, fs: FileSystem, sent: Option<SynthesisRequest>)

  /** The call rendered a prompt and wrote it to the cache. */
  predicate Rendered(c: CacheCall) {
    c.sent.Some? && c.result.Ok?
  }

  /** The cache file a request resolves to: it depends on the node id and the
      text only. */
  function CacheFileFor(digest: string -> HexDigest, root: Cwd, rq: TtsRequest): string {
    CacheFile(root, SanitizeNodeId(rq.ttsNodeId), digest(rq.text))
  }

  function CacheDirsFor(root: Cwd, rq: TtsRequest): set<string> {
    CacheDirs(root, SanitizeNodeId(rq.ttsNodeId))
  }

  /** `ensureDirSync` fails for this request: one of its directories is a file. */
  predicate Blocked(fs: FileSystem, root: Cwd, rq: TtsRequest) {
    CacheDirsFor(root, rq) * fs.files.Keys != {}
  }

  /** Two requests share a cache key: same sanitised node id, same text digest. */
  predicate SameKey(digest: string -> HexDigest, a: TtsRequest, b: TtsRequest) {
    SanitizeNodeId(a.ttsNodeId) == SanitizeNodeId(b.ttsNodeId) && digest(a.text) == digest(b.text)
  }

  /** The descriptor returned in both branches; `ext` is the filename's extension. */
  function DescriptorFor(digest: string -> HexDigest, root: Cwd, rq: TtsRequest, ext: string): (d: Descriptor)
    ensures d.filePath == CacheFileFor(digest, root, rq)
    ensures d.filePath == d.filePathWoExt + ".mp3"
    ensures d.path == "/aststasisutil/tts/" + SanitizeNodeId(rq.ttsNodeId) + "/" + digest(rq.text) + ".mp3"
    ensures d.filename == digest(rq.text) + ext
  {
    var node := SanitizeNodeId(rq.ttsNodeId);
    var h := digest(rq.text);
    Descriptor(PublicPath(node, h), h + ext, CacheFile(root, node, h), CacheBase(root, node, h))
  }

  function GetTtsFile(opts: TtsOptions, digest: string -> HexDigest, root: Cwd,
                      fs: FileSystem, rq: TtsRequest,
                      renderer: SynthesisRequest -> RenderReply): (r: CacheCall)
    // creating the cache folder fails when one of its directories is a file
    ensures Blocked(fs, root, rq) <==> r.result == Err(CacheDirIsFile)
    ensures Blocked(fs, root, rq) ==> r.fs == fs && r.sent.None?
    ensures !Blocked(fs, root, rq) ==> r.fs.dirs == fs.dirs + CacheDirsFor(root, rq)
    // a file that exists is served without calling the renderer or writing
    ensures !Blocked(fs, root, rq) && Exists(fs, CacheFileFor(digest, root, rq)) ==>
              r.sent.None? && r.result.Ok? && r.fs.files == fs.files
    // the renderer is called exactly on a miss with a configured language
    ensures r.sent.Some? ==>
              !Blocked(fs, root, rq) && !Exists(fs, CacheFileFor(digest, root, rq)) && rq.language in opts.voiceConfig
    ensures !Blocked(fs, root, rq) && !Exists(fs, CacheFileFor(digest, root, rq)) && rq.language in opts.voiceConfig ==>
              r.sent == Some(BuildRequest(opts, rq.language, rq.text).value)
    // a missing voice configuration fails a miss before any request is sent
    ensures r.result == Err(NoVoiceConfig(rq.language)) <==>
              !Blocked(fs, root, rq) && !Exists(fs, CacheFileFor(digest, root, rq)) && rq.language !in opts.voiceConfig
    // a rendered prompt is written to the cache file and nothing else is touched
    ensures Rendered(r) ==>
              renderer(r.sent.value).Audio? &&
              r.fs.files == fs.files[CacheFileFor(digest, root, rq) := renderer(r.sent.value).bytes]
    ensures !Rendered(r) ==> r.fs.files == fs.files
    // a configured miss whose render returns audio succeeds and writes the file
    ensures (&& !Blocked(fs, root, rq) && !Exists(fs, CacheFileFor(digest, root, rq))
             && rq.language in opts.voiceConfig
             && renderer(BuildRequest(opts, rq.language, rq.text).value).Audio?) ==> Rendered(r)
    // a failed render leaves no file
    ensures r.result == Err(RenderFailed) <==> r.sent.Some? && renderer(r.sent.value).RenderRejected?
    // every descriptor names the cache file, which then exists
    ensures r.result.Ok? ==> Exists(r.fs, r.result.value.filePath)
    ensures r.result.Ok? ==> r.result.value.filePath == CacheFileFor(digest, root, rq)
    ensures r.result.Ok? ==> r.result.value.filePath == r.result.value.filePathWoExt + ".mp3"
    ensures r.result.Ok? ==>
              r.result.value.path == "/aststasisutil/tts/" + SanitizeNodeId(rq.ttsNodeId) + "/" + digest(rq.text) + ".mp3"
    // the hit branch names a `.wav` file, the miss branch an `.mp3` file
    ensures r.result.Ok? ==> r.result.value.filename == digest(rq.text) + (if r.sent.None? then ".wav" else ".mp3")
  {
    var node := SanitizeNodeId(rq.ttsNodeId);
    var h := digest(rq.text);
    FileNotACacheDir(root, node, h);
    match EnsureDirs(fs, CacheDirs(root, node))
    case None => CacheCall(Err(CacheDirIsFile), fs, None)
    case Some(fs1) =>
      var file := CacheFile(root, node, h);
      if Exists(fs1, file) then
        CacheCall(Ok(DescriptorFor(digest, root, rq, ".wav")), fs1, None)
      else
        match BuildRequest(opts, rq.language, rq.text)
        case Err(_) => CacheCall(Err(NoVoiceConfig(rq.language)), fs1, None)
        case Ok(body) =>
          match renderer(body)
          case RenderRejected => CacheCall(Err(RenderFailed), fs1, Some(body))
          case Audio(bytes) =>
            CacheCall(Ok(DescriptorFor(digest, root, rq, ".mp3")), WriteFile(fs1, file, bytes), Some(body))
  }

  /** Once a call for (node id, text) has succeeded, the next call for the same
      pair, in any language, is a hit: no render and no write. */
  lemma RepeatIsHit(opts: TtsOptions, digest: string -> HexDigest, root: Cwd, fs: FileSystem,
                    rq: TtsRequest, again: TtsRequest, renderer: SynthesisRequest -> RenderReply)
    requires again.ttsNodeId == rq.ttsNodeId && again.text == rq.text
    ensures var first := GetTtsFile(opts, digest, root, fs, rq, renderer);
      var second := GetTtsFile(opts, digest, root, first.fs, again, renderer);
      first.result.Ok? ==>
      && second.sent.None? && second.result.Ok? && second.fs.files == first.fs.files
      && second.result.value.filePath == first.result.value.filePath
      && second.result.value.path == first.result.value.path
  {
    FileNotACacheDir(root, SanitizeNodeId(rq.ttsNodeId), digest(rq.text));
  }

  /** The effect of one call on the files: a render adds exactly the (absent)
      cache file, anything else leaves the files as they were. */
  lemma FileEffect(opts: TtsOptions, digest: string -> HexDigest, root: Cwd, fs: FileSystem,
                   rq: TtsRequest, renderer: SynthesisRequest -> RenderReply)
    ensures var call := GetTtsFile(opts, digest, root, fs, rq, renderer);
      var file := CacheFileFor(digest, root, rq);
      && fs.dirs <= call.fs.dirs
      && (Rendered(call) ==>
            && !Exists(fs, file)
            && (forall p :: p in call.fs.files <==> p in fs.files || p == file)
            && (forall p :: p in fs.files ==> call.fs.files[p] == fs.files[p]))
      && (!Rendered(call) ==> call.fs.files == fs.files)
  {
  }

  /** The call made for each request when `rqs` are served one after the other. */
  function Calls(opts: TtsOptions, digest: string -> HexDigest, root: Cwd, fs: FileSystem,
                 rqs: seq<TtsRequest>, renderer: SynthesisRequest -> RenderReply): (calls: seq<CacheCall>)
    ensures |calls| == |rqs|
    decreases |rqs|
  {
    if |rqs| == 0 then []
    else
      var first := GetTtsFile(opts, digest, root, fs, rqs[0], renderer);
      [first] + Calls(opts, digest, root, first.fs, rqs[1..], renderer)
  }

  /** The file system call `k` of a sequence starts from. */
  function Before(fs0: FileSystem, calls: seq<CacheCall>, k: nat): FileSystem
    requires k <= |calls|
  {
    if k == 0 then fs0 else calls[k - 1].fs
  }

  lemma CallsUnfold(opts: TtsOptions, digest: string -> HexDigest, root: Cwd, fs: FileSystem,
                    rqs: seq<TtsRequest>, renderer: SynthesisRequest -> RenderReply, j: nat)
    requires j < |rqs|
    ensures Calls(opts, digest, root, fs, rqs, renderer)[0] == GetTtsFile(opts, digest, root, fs, rqs[0], renderer)
    ensures 0 < j ==>
              Calls(opts, digest, root, fs, rqs, renderer)[j]
              == Calls(opts, digest, root, GetTtsFile(opts, digest, root, fs, rqs[0], renderer).fs, rqs[1..], renderer)[j - 1]
    ensures 0 < j ==> rqs[1..][j - 1] == rqs[j]
  {
  }

  /** Call `k` of a sequential run is `getTtsFile` on the file system the
      previous call left behind. */
  lemma {:induction false} CallAt(opts: TtsOptions, digest: string -> HexDigest, root: Cwd, fs: FileSystem,
                                  rqs: seq<TtsRequest>, renderer: SynthesisRequest -> RenderReply, k: nat)
    requires k < |rqs|
    ensures Calls(opts, digest, root, fs, rqs, renderer)[k]
         == GetTtsFile(opts, digest, root, Before(fs, Calls(opts, digest, root, fs, rqs, renderer), k), rqs[k], renderer)
    decreases k
  {
    CallsUnfold(opts, digest, root, fs, rqs, renderer, k);
    if k > 0 {
      var next := GetTtsFile(opts, digest, root, fs, rqs[0], renderer).fs;
      CallAt(opts, digest, root, next, rqs[1..], renderer, k - 1);
      if k > 1 {
        CallsUnfold(opts, digest, root, fs, rqs, renderer, k - 1);
      }
    }
  }

  /** A cache entry is in place: its file exists and its directories are
      directories. */
  predicate InPlace(fs: FileSystem, file: string, dirs: set<string>) {
    Exists(fs, file) && dirs <= fs.dirs && dirs !! fs.files.Keys
  }

  /** The cache entry of `key` is in place. */
  predicate Cached(digest: string -> HexDigest, root: Cwd, fs: FileSystem, key: TtsRequest) {
    InPlace(fs, CacheFileFor(digest, root, key), CacheDirsFor(root, key))
  }

  /** What one call guarantees about an entry in place: it stays in place,
      and when the call is for that entry (`hit`), it is a hit. */
  predicate KeepsEntry(fs: FileSystem, call: CacheCall, hit: bool, file: string, dirs: set<string>) {
    InPlace(fs, file, dirs) ==>
      && InPlace(call.fs, file, dirs)
      && (hit ==> call.sent.None? && call.result.Ok?)
  }

  /** Every call of `getTtsFile` keeps every cached key. */
  lemma CallKeepsKey(opts: TtsOptions, digest: string -> HexDigest, root: Cwd, fs: FileSystem,
                     rq: TtsRequest, renderer: SynthesisRequest -> RenderReply, key: TtsRequest)
    ensures KeepsEntry(fs, GetTtsFile(opts, digest, root, fs, rq, renderer), SameKey(digest, rq, key),
                       CacheFileFor(digest, root, key), CacheDirsFor(root, key))
  {
    if Cached(digest, root, fs, key) && SameKey(digest, rq, key) {
      assert CacheFileFor(digest, root, rq) == CacheFileFor(digest, root, key);
      assert CacheDirsFor(root, rq) == CacheDirsFor(root, key);
    }
  }

  /** A call that renders leaves its own key cached. */
  lemma RenderCaches(opts: TtsOptions, digest: string -> HexDigest, root: Cwd, fs: FileSystem,
                     rq: TtsRequest, renderer: SynthesisRequest -> RenderReply)
    ensures Rendered(GetTtsFile(opts, digest, root, fs, rq, renderer)) ==>
              Cached(digest, root, GetTtsFile(opts, digest, root, fs, rq, renderer).fs, rq)
  {
    FileNotACacheDir(root, SanitizeNodeId(rq.ttsNodeId), digest(rq.text));
  }

  lemma RenderedIsCached(opts: TtsOptions, digest: string -> HexDigest, root: Cwd, fs: FileSystem,
                          rqs: seq<TtsRequest>, renderer: SynthesisRequest -> RenderReply, i: nat)
    requires i < |rqs| && Rendered(Calls(opts, digest, root, fs, rqs, renderer)[i])
    ensures Cached(digest, root, Calls(opts, digest, root, fs, rqs, renderer)[i].fs, rqs[i])
  {
    CallAt(opts, digest, root, fs, rqs, renderer, i);
    RenderCaches(opts, digest, root, Before(fs, Calls(opts, digest, root, fs, rqs, renderer), i), rqs[i], renderer);
  }

  /** A sequential run in which every call keeps the entry `file`, `dirs`;
      `hits[k]` tells whether call `k` is for that entry. */
  ghost predicate EntryChain(fs0: FileSystem, calls: seq<CacheCall>, hits: seq<bool>, file: string, dirs: set<string>) {
    && |calls| == |hits|
    // triggered on `Before` alone: `Before(fs0, calls, k)` unfolds to `calls[k - 1]`
    && forall k {:trigger Before(fs0, calls, k)} :: 0 <= k < |calls| ==>
         KeepsEntry(Before(fs0, calls, k), calls[k], hits[k], file, dirs)
  }

  /** Whether each request shares its cache key with `key`. */
  function SameKeys(digest: string -> HexDigest, rqs: seq<TtsRequest>, key: TtsRequest): (hits: seq<bool>)
    ensures |hits| == |rqs|
    ensures forall k :: 0 <= k < |rqs| ==> (hits[k] <==> SameKey(digest, rqs[k], key))
  {
    seq(|rqs|, k requires 0 <= k < |rqs| => SameKey(digest, rqs[k], key))
  }

  lemma CallsKeepKey(opts: TtsOptions, digest: string -> HexDigest, root: Cwd, fs: FileSystem,
                     rqs: seq<TtsRequest>, renderer: SynthesisRequest -> RenderReply, key: TtsRequest)
    ensures EntryChain(fs, Calls(opts, digest, root, fs, rqs, renderer), SameKeys(digest, rqs, key),
                       CacheFileFor(digest, root, key), CacheDirsFor(root, key))
  {
    var calls := Calls(opts, digest, root, fs, rqs, renderer);
    var hits := SameKeys(digest, rqs, key);
    forall k | 0 <= k < |rqs|
      ensures KeepsEntry(Before(fs, calls, k), calls[k], hits[k], CacheFileFor(digest, root, key), CacheDirsFor(root, key))
    {
      CallAt(opts, digest, root, fs, rqs, renderer, k);
      CallKeepsKey(opts, digest, root, Before(fs, calls, k), rqs[k], renderer, key);
    }
  }

  /** In a chain, an entry in place before call `k` makes every later call
      for it a hit. */
  lemma {:induction false} StaysHit(fs0: FileSystem, calls: seq<CacheCall>, hits: seq<bool>,
                                    file: string, dirs: set<string>, k: nat, j: nat)
    requires EntryChain(fs0, calls, hits, file, dirs)
    requires k <= j < |calls| && InPlace(Before(fs0, calls, k), file, dirs) && hits[j]
    ensures calls[j].sent.None? && calls[j].result.Ok?
    decreases j - k
  {
    assert KeepsEntry(Before(fs0, calls, k), calls[k], hits[k], file, dirs);
    if k < j {
      assert Before(fs0, calls, k + 1) == calls[k].fs;
      StaysHit(fs0, calls, hits, file, dirs, k + 1, j);
    }
  }

  /** Serving requests one after the other, a key whose prompt has been
      rendered is never sent to the renderer again. */
  lemma NoReRender(opts: TtsOptions, digest: string -> HexDigest, root: Cwd, fs: FileSystem,
                   rqs: seq<TtsRequest>, renderer: SynthesisRequest -> RenderReply, i: nat, j: nat)
    requires i < j < |rqs| && SameKey(digest, rqs[i], rqs[j])
    ensures Rendered(Calls(opts, digest, root, fs, rqs, renderer)[i]) ==>
              Calls(opts, digest, root, fs, rqs, renderer)[j].sent.None?
  {
    if !Rendered(Calls(opts, digest, root, fs, rqs, renderer)[i]) {
      return;
    }
    var calls := Calls(opts, digest, root, fs, rqs, renderer);
    var hits := SameKeys(digest, rqs, rqs[i]);
    var file, dirs := CacheFileFor(digest, root, rqs[i]), CacheDirsFor(root, rqs[i]);
    assert EntryChain(fs, calls, hits, file, dirs) by {
      CallsKeepKey(opts, digest, root, fs, rqs, renderer, rqs[i]);
    }
    assert InPlace(Before(fs, calls, i + 1), file, dirs) by {
      RenderedIsCached(opts, digest, root, fs, rqs, renderer, i);
      assert Before(fs, calls, i + 1) == calls[i].fs;
    }
    assert hits[j];
    StaysHit(fs, calls, hits, file, dirs, i + 1, j);
  }

  /** The cache files of the calls that rendered, in order. */
  function RenderedFiles(digest: string -> HexDigest, root: Cwd, rqs: seq<TtsRequest>, calls: seq<CacheCall>): seq<string>
    requires |calls| == |rqs|
  {
    if |rqs| == 0 then []
    else
      RenderedFiles(digest, root, rqs[..|rqs| - 1], calls[..|calls| - 1])
        + if Rendered(calls[|calls| - 1]) then [CacheFileFor(digest, root, rqs[|rqs| - 1])] else []
  }

  lemma RenderedFilesSnoc(digest: string -> HexDigest, root: Cwd, rqs: seq<TtsRequest>, calls: seq<CacheCall>, n: nat)
    requires n < |rqs| == |calls|
    ensures RenderedFiles(digest, root, rqs[..n + 1], calls[..n + 1])
         == RenderedFiles(digest, root, rqs[..n], calls[..n])
            + if Rendered(calls[n]) then [CacheFileFor(digest, root, rqs[n])] else []
  {
    assert rqs[..n + 1][..n] == rqs[..n];
    assert calls[..n + 1][..n] == calls[..n];
  }

  /** What serving some requests from `fs0` has done so far: `rendered` lists
      distinct cache files, each absent at the start and present now, and the
      files are exactly the old ones, unchanged, plus the rendered ones. */
  ghost predicate Served(fs0: FileSystem, fs: FileSystem, rendered: seq<string>) {
    && fs0.dirs <= fs.dirs
    && (forall i, j :: 0 <= i < j < |rendered| ==> rendered[i] != rendered[j])
    && (forall i :: 0 <= i < |rendered| ==> !Exists(fs0, rendered[i]) && rendered[i] in fs.files)
    && (forall p :: p in fs.files <==> p in fs0.files || p in rendered)
    && (forall p :: p in fs0.files ==> fs.files[p] == fs0.files[p])
  }

  /** A step with the effect `FileEffect` describes keeps `Served`, recording
      the cache file when it rendered. */
  lemma ServeStep(fs0: FileSystem, fs: FileSystem, rendered: seq<string>,
                  next: FileSystem, file: string, renders: bool)
    requires Served(fs0, fs, rendered)
    requires fs.dirs <= next.dirs
    requires renders ==> !Exists(fs, file)
    requires renders ==> forall p :: p in next.files <==> p in fs.files || p == file
    requires renders ==> forall p :: p in fs.files ==> next.files[p] == fs.files[p]
    requires !renders ==> next.files == fs.files
    ensures Served(fs0, next, if renders then rendered + [file] else rendered)
  {
    if renders {
      assert file !in rendered;
      assert forall p :: p in rendered + [file] <==> p in rendered || p == file;
    }
  }

  /** Serving requests one after the other, no rendered key reaches the renderer again. */
  lemma AtMostOneRender(opts: TtsOptions, digest: string -> HexDigest, root: Cwd, fs: FileSystem,
                        rqs: seq<TtsRequest>, renderer: SynthesisRequest -> RenderReply)
    ensures forall i, j :: 0 <= i < j < |rqs| && SameKey(digest, rqs[i], rqs[j])
              && Rendered(Calls(opts, digest, root, fs, rqs, renderer)[i])
              ==> Calls(opts, digest, root, fs, rqs, renderer)[j].sent.None?
  {
    forall i, j | 0 <= i < j < |rqs| && SameKey(digest, rqs[i], rqs[j])
                  && Rendered(Calls(opts, digest, root, fs, rqs, renderer)[i])
      ensures Calls(opts, digest, root, fs, rqs, renderer)[j].sent.None?
    {
      NoReRender(opts, digest, root, fs, rqs, renderer, i, j);
    }
  }

  /** The state of `ServeSequentially` after serving the first `n` requests. */
  ghost predicate Progress(opts: TtsOptions, digest: string -> HexDigest, root: Cwd, fs0: FileSystem,
                           rqs: seq<TtsRequest>, renderer: SynthesisRequest -> RenderReply,
                           n: nat, fs: FileSystem, rendered: seq<string>) {
    && n <= |rqs|
    && fs == Before(fs0, Calls(opts, digest, root, fs0, rqs, renderer), n)
    && rendered == RenderedFiles(digest, root, rqs[..n], Calls(opts, digest, root, fs0, rqs, renderer)[..n])
    && Served(fs0, fs, rendered)
    && |rendered| <= n
  }

  lemma ProgressStep(opts: TtsOptions, digest: string -> HexDigest, root: Cwd, fs0: FileSystem,
                     rqs: seq<TtsRequest>, renderer: SynthesisRequest -> RenderReply,
                     n: nat, fs: FileSystem, rendered: seq<string>)
    requires n < |rqs| && Progress(opts, digest, root, fs0, rqs, renderer, n, fs, rendered)
    ensures var call := GetTtsFile(opts, digest, root, fs, rqs[n], renderer);
      Progress(opts, digest, root, fs0, rqs, renderer, n + 1, call.fs,
               if Rendered(call) then rendered + [CacheFileFor(digest, root, rqs[n])] else rendered)
  {
    var calls := Calls(opts, digest, root, fs0, rqs, renderer);
    var call := GetTtsFile(opts, digest, root, fs, rqs[n], renderer);
    CallAt(opts, digest, root, fs0, rqs, renderer, n);
    FileEffect(opts, digest, root, fs, rqs[n], renderer);
    ServeStep(fs0, fs, rendered, call.fs, CacheFileFor(digest, root, rqs[n]), Rendered(call));
    RenderedFilesSnoc(digest, root, rqs, calls, n);
  }

  /** Serve `rqs` in order and list the cache files the renderer produced.
      A key whose prompt was rendered is never sent to the renderer again, so
      each cache file is rendered at most once, and only if it was absent at
      the start; afterwards the cache holds exactly the old files and the
      rendered ones. */
  method ServeSequentially(opts: TtsOptions, digest: string -> HexDigest, root: Cwd, fs0: FileSystem,
                           rqs: seq<TtsRequest>, renderer: SynthesisRequest -> RenderReply)
    returns (fs: FileSystem, rendered: seq<string>)
    ensures fs == Before(fs0, Calls(opts, digest, root, fs0, rqs, renderer), |rqs|)
    ensures rendered == RenderedFiles(digest, root, rqs, Calls(opts, digest, root, fs0, rqs, renderer))
    ensures forall i, j :: 0 <= i < j < |rqs| && SameKey(digest, rqs[i], rqs[j])
              && Rendered(Calls(opts, digest, root, fs0, rqs, renderer)[i])
              ==> Calls(opts, digest, root, fs0, rqs, renderer)[j].sent.None?
    ensures forall i, j :: 0 <= i < j < |rendered| ==> rendered[i] != rendered[j]
    ensures forall i :: 0 <= i < |rendered| ==> !Exists(fs0, rendered[i]) && rendered[i] in fs.files
    ensures forall p :: p in fs.files <==> p in fs0.files || p in rendered
    ensures forall p :: p in fs0.files ==> fs.files[p] == fs0.files[p]
    ensures |rendered| <= |rqs|
  {
    fs := fs0;
    rendered := [];
    for n := 0 to |rqs|
      invariant Progress(opts, digest, root, fs0, rqs, renderer, n, fs, rendered)
    {
      ProgressStep(opts, digest, root, fs0, rqs, renderer, n, fs, rendered);
      var call := GetTtsFile(opts, digest, root, fs, rqs[n], renderer);
      if Rendered(call) {
        rendered := rendered + [CacheFileFor(digest, root, rqs[n])];
      }
      fs := call.fs;
    }
    assert rqs[..|rqs|] == rqs;
    assert Calls(opts, digest, root, fs0, rqs, renderer)[..|rqs|] == Calls(opts, digest, root, fs0, rqs, renderer);
    AtMostOneRender(opts, digest, root, fs0, rqs, renderer);
  }
}

=== FILE: session_store.dfy ===
/**
 The per-channel call session store of the Stasis application manager:
 `callMetaStore` and `localStore`, both keyed by channel id, plus the
 `setChannelVar` requests that mirror every successful local write back to
 the telephony server (recorded, in order, in `mirrorLog`).
 */
module SessionStore {
  import opened Basics

  type ChannelId = string
  type Key = string
  type Val = string

  /** The fields of a channel in `StasisStart` that the handler reads. The
      caller and dialplan objects are copied verbatim, so they stay opaque. */
  datatype Channel = Channel(
    id: ChannelId,
    name: string,
    protocolId: string,
    caller: string,
    dialplan: string)

  datatype AsteriskInfo = AsteriskInfo(channelId: ChannelId, channelName: string, protocolId: string)

  /** The record stored in `callMetaStore`; `calledAt` is the channel's
      creation time already formatted as local time. */
  datatype CallMeta = CallMeta(asterisk: AsteriskInfo, caller: string, dialplan: string, calledAt: string)

  /** One `setChannelVar` request sent to the telephony server. */
  datatype Mirror = Mirror(channelId: ChannelId, variable: Key, value: Val)

  datatype Store = Store(
    meta: map<ChannelId, CallMeta>,
    local: map<ChannelId, map<Key, Val>>,
    mirrorLog: seq<Mirror>)

  /** The state right after construction: both stores are `{}`. */
  const Empty: Store := Store(map[], map[], [])

  /** Both stores hold exactly the same channels. */
  predicate Consistent(s: Store) {
    s.meta.Keys == s.local.Keys
  }

  /** `m'` agrees with `m` on every key except possibly `x`. */
  ghost predicate SameExcept<K(!new), V>(m: map<K, V>, m': map<K, V>, x: K) {
    forall y :: y != x ==> (y in m <==> y in m') && (y in m ==> m[y] == m'[y])
  }

  /** The `callMetaData` record built from the channel and the start time. */
  function MetaOf(ch: Channel, calledAt: string): (m: CallMeta)
    ensures m.asterisk.channelId == ch.id && m.asterisk.channelName == ch.name
    ensures m.asterisk.protocolId == ch.protocolId
    ensures m.caller == ch.caller && m.dialplan == ch.dialplan && m.calledAt == calledAt
  {
    CallMeta(AsteriskInfo(ch.id, ch.name, ch.protocolId), ch.caller, ch.dialplan, calledAt)
  }

  /** The `StasisStart` handler: record the call's metadata and give the
      channel a fresh, empty variable map (discarding any earlier one). */
  function OnStasisStart(s: Store, ch: Channel, calledAt: string): (s': Store)
    ensures ch.id in s'.meta && s'.meta[ch.id].asterisk.channelId == ch.id
    ensures s'.meta[ch.id].caller == ch.caller && s'.meta[ch.id].dialplan == ch.dialplan
    ensures s'.meta[ch.id] == CallMeta(AsteriskInfo(ch.id, ch.name, ch.protocolId), ch.caller, ch.dialplan, calledAt)
    ensures ch.id in s'.local && s'.local[ch.id] == map[]
    ensures SameExcept(s.meta, s'.meta, ch.id) && SameExcept(s.local, s'.local, ch.id)
    ensures s'.mirrorLog == s.mirrorLog
    ensures Consistent(s) ==> Consistent(s')
  {
    Store(s.meta[ch.id := MetaOf(ch, calledAt)], s.local[ch.id := map[]], s.mirrorLog)
  }

  /** The `StasisEnd` handler: both entries of the channel are removed at once. */
  function OnStasisEnd(s: Store, c: ChannelId): (s': Store)
    ensures c !in s'.meta && c !in s'.local
    ensures SameExcept(s.meta, s'.meta, c) && SameExcept(s.local, s'.local, c)
    ensures s'.mirrorLog == s.mirrorLog
    ensures Consistent(s) ==> Consistent(s')
  {
    Store(s.meta - {c}, s.local - {c}, s.mirrorLog)
  }

  datatype SetOutcome = SetOutcome(ok: bool, store: Store)

  /** `setLocalVariable`: write only into an existing variable map, mirror the
      write as a channel variable, and report whether it happened. */
  function SetLocalVariable(s: Store, c: ChannelId, k: Key, v: Val): (r: SetOutcome)
    ensures r.ok <==> c in s.local
    ensures !r.ok ==> r.store == s
    ensures r.ok ==> r.store.mirrorLog == s.mirrorLog + [Mirror(c, k, v)]
    ensures r.ok ==> c in r.store.local && k in r.store.local[c] && r.store.local[c][k] == v
    ensures r.ok ==> SameExcept(s.local[c], r.store.local[c], k)
    ensures SameExcept(s.local, r.store.local, c) && (c in s.local <==> c in r.store.local)
    ensures r.store.meta == s.meta
  {
    if c !in s.local then
      SetOutcome(false, s)
    else
      var vars := s.local[c][k := v];
      SetOutcome(true, Store(s.meta, s.local[c := vars], s.mirrorLog + [Mirror(c, k, v)]))
  }

  /** `getLocalVariable`: the stored value, or `undefined` when the channel or
      the key is unknown. */
  function GetLocalVariable(s: Store, c: ChannelId, k: Key): (r: Option<Val>)
    ensures r.Some? <==> c in s.local && k in s.local[c]
    ensures r.Some? ==> r.value == s.local[c][k]
  {
    if c !in s.local then None
    else if k !in s.local[c] then None
    else Some(s.local[c][k])
  }

  /** A successful write is read back, and no other variable of any channel
      appears to change. */
  lemma SetThenGet(s: Store, c: ChannelId, k: Key, v: Val)
    requires c in s.local
    ensures SetLocalVariable(s, c, k, v).ok
    ensures GetLocalVariable(SetLocalVariable(s, c, k, v).store, c, k) == Some(v)
    ensures forall c', k' :: c' != c || k' != k ==>
      GetLocalVariable(SetLocalVariable(s, c, k, v).store, c', k') == GetLocalVariable(s, c', k')
  {
  }

  /** Once a call has ended its variables are gone: reads give `undefined`,
      writes are refused and change nothing. */
  lemma EndThenAbsent(s: Store, c: ChannelId, k: Key, v: Val)
    ensures GetLocalVariable(OnStasisEnd(s, c), c, k) == None
    ensures SetLocalVariable(OnStasisEnd(s, c), c, k, v) == SetOutcome(false, OnStasisEnd(s, c))
  {
  }

  /** A repeated `StasisStart` for a live channel discards its earlier variables. */
  lemma StartDiscardsVariables(s: Store, ch: Channel, calledAt: string, k: Key)
    ensures GetLocalVariable(OnStasisStart(s, ch, calledAt), ch.id, k) == None
  {
  }

  /** Writes and reads never add or remove channels in either store. */
  lemma SetKeepsChannels(s: Store, c: ChannelId, k: Key, v: Val)
    ensures SetLocalVariable(s, c, k, v).store.local.Keys == s.local.Keys
    ensures SetLocalVariable(s, c, k, v).store.meta.Keys == s.meta.Keys
    ensures Consistent(s) ==> Consistent(SetLocalVariable(s, c, k, v).store)
  {
  }
}

=== FILE: session_trace.dfy ===
/**
 Sequences of store events as the telephony server and the application
 deliver them, replayed from the empty store, and an independent
 description of the result: for every channel and key, the latest event
 that concerns it decides what is stored.
 */
module SessionTrace {
  import opened Basics
  import opened SessionStore

  datatype Event =
    | StasisStart(ch: Channel, calledAt: string)
    | StasisEnd(id: ChannelId)
    | SetVar(id: ChannelId, key: Key, val: Val)
    | GetVar(id: ChannelId, key: Key)

  function Step(s: Store, e: Event): Store {
    match e
    case StasisStart(ch, calledAt) => OnStasisStart(s, ch, calledAt)
    case StasisEnd(c) => OnStasisEnd(s, c)
    case SetVar(c, k, v) => SetLocalVariable(s, c, k, v).store
    case GetVar(_, _) => s
  }

  /** The store after the events of `tr`, in order, starting from construction. */
  function Run(tr: seq<Event>): Store {
    if |tr| == 0 then Empty else Step(Run(tr[..|tr| - 1]), tr[|tr| - 1])
  }

  /** Reference: the metadata of `c` is that of its latest `StasisStart`,
      unless a `StasisEnd` for `c` came after it. */
  function MetaIn(tr: seq<Event>, c: ChannelId): Option<CallMeta> {
    if |tr| == 0 then None
    else
      var e := tr[|tr| - 1];
      if e.StasisStart? && e.ch.id == c then Some(MetaOf(e.ch, e.calledAt))
      else if e.StasisEnd? && e.id == c then None
      else MetaIn(tr[..|tr| - 1], c)
  }

  /** Reference: a channel is live when its latest start/end event is a start. */
  predicate LiveIn(tr: seq<Event>, c: ChannelId) {
    MetaIn(tr, c).Some?
  }

  /** Reference: the value of `k` on `c` is that of the latest write to it that
      happened while `c` was live, unless `c` started or ended after it. */
  function LookupIn(tr: seq<Event>, c: ChannelId, k: Key): Option<Val> {
    if |tr| == 0 then None
    else
      var e := tr[|tr| - 1];
      var before := tr[..|tr| - 1];
      if (e.StasisStart? && e.ch.id == c) || (e.StasisEnd? && e.id == c) then None
      else if e.SetVar? && e.id == c && e.key == k && LiveIn(before, c) then Some(e.val)
      else LookupIn(before, c, k)
  }

  /** Reference: one channel-variable mirror per write to a live channel. */
  function MirrorsOf(tr: seq<Event>): seq<Mirror> {
    if |tr| == 0 then []
    else
      var e := tr[|tr| - 1];
      var before := tr[..|tr| - 1];
      MirrorsOf(before) + if e.SetVar? && LiveIn(before, e.id) then [Mirror(e.id, e.key, e.val)] else []
  }

  function MetaLookup(s: Store, c: ChannelId): Option<CallMeta> {
    if c in s.meta then Some(s.meta[c]) else None
  }

  /** Replaying any event sequence leaves the metadata store as the reference
      describes it. */
  lemma {:induction false} RunMetaMatches(tr: seq<Event>)
    ensures forall c :: MetaLookup(Run(tr), c) == MetaIn(tr, c)
  {
    if |tr| == 0 {
      return;
    }
    var before := tr[..|tr| - 1];
    var e := tr[|tr| - 1];
    RunMetaMatches(before);
    var s := Run(before);
    forall c
      ensures MetaLookup(Run(tr), c) == MetaIn(tr, c)
    {
      assert MetaLookup(s, c) == MetaIn(before, c);
      match e
      case StasisStart(ch, at) =>
      case StasisEnd(d) =>
      case SetVar(d, k, v) =>
        assert Run(tr).meta == s.meta;
      case GetVar(_, _) =>
    }
  }

  /** Replaying any event sequence leaves a variable map exactly for the live
      channels. */
  lemma {:induction false} RunLiveMatches(tr: seq<Event>)
    ensures forall c :: c in Run(tr).local <==> LiveIn(tr, c)
  {
    if |tr| == 0 {
      return;
    }
    var before := tr[..|tr| - 1];
    var e := tr[|tr| - 1];
    RunLiveMatches(before);
    var s := Run(before);
    forall c
      ensures c in Run(tr).local <==> LiveIn(tr, c)
    {
      assert c in s.local <==> LiveIn(before, c);
      match e
      case StasisStart(ch, at) =>
      case StasisEnd(d) =>
      case SetVar(d, k, v) =>
        assert Run(tr).local.Keys == s.local.Keys;
      case GetVar(_, _) =>
    }
  }

  /** Replaying any event sequence leaves every local variable as the
      reference describes it. */
  lemma {:induction false} RunLocalMatches(tr: seq<Event>)
    ensures forall c, k :: GetLocalVariable(Run(tr), c, k) == LookupIn(tr, c, k)
  {
    if |tr| == 0 {
      return;
    }
    var before := tr[..|tr| - 1];
    var e := tr[|tr| - 1];
    RunLocalMatches(before);
    RunLiveMatches(before);
    var s := Run(before);
    forall c, k
      ensures GetLocalVariable(Run(tr), c, k) == LookupIn(tr, c, k)
    {
      assert GetLocalVariable(s, c, k) == LookupIn(before, c, k);
      assert c in s.local <==> LiveIn(before, c);
      match e
      case StasisStart(ch, at) =>
      case StasisEnd(d) =>
      case SetVar(d, k', v) =>
        if d in s.local {
          SetThenGet(s, d, k', v);
        }
      case GetVar(_, _) =>
    }
  }

  /** Replaying any event sequence mirrors exactly the writes to live channels. */
  lemma {:induction false} RunMirrorsMatch(tr: seq<Event>)
    ensures Run(tr).mirrorLog == MirrorsOf(tr)
  {
    if |tr| == 0 {
      return;
    }
    var before := tr[..|tr| - 1];
    RunMirrorsMatch(before);
    RunLiveMatches(before);
  }

  /** Both stores always hold the same channels. */
  lemma {:induction false} RunConsistent(tr: seq<Event>)
    ensures Consistent(Run(tr))
  {
    RunMetaMatches(tr);
    RunLiveMatches(tr);
    forall c
      ensures c in Run(tr).meta <==> c in Run(tr).local
    {
      assert c in Run(tr).meta <==> MetaLookup(Run(tr), c).Some?;
    }
  }

  /** Every trace ending in `StasisEnd(c)` leaves nothing of `c` behind. */
  lemma EndedChannelIsGone(tr: seq<Event>, c: ChannelId, k: Key, v: Val)
    ensures c !in Run(tr + [StasisEnd(c)]).meta
    ensures GetLocalVariable(Run(tr + [StasisEnd(c)]), c, k) == None
    ensures !SetLocalVariable(Run(tr + [StasisEnd(c)]), c, k, v).ok
  {
    assert (tr + [StasisEnd(c)])[..|tr|] == tr;
  }
}
